=== FILE: README.md ===
# Multi-language chat bot: locale resolver and decision rules, in Dafny

This project models the core of a small chat-platform bot. Its centre is the **locale
resolver** (`LocaleManager`). At start-up it builds a registry of language packs, each a
map from message key to template string. A lookup `get(key, lang_code, **kwargs)` picks the
requested pack. If that pack is missing it uses the `en` pack, and if that is missing too it
uses an empty one. A missing key gives a Russian diagnostic that names the key and the
*requested* language. A template is formatted only when keyword arguments are given, and a
`KeyError` while formatting becomes a second diagnostic. With keyword arguments the
missing-key diagnostic is formatted too, like any stored template.

Around the resolver sit three small decision rules:

- the before-invoke hook that picks `ru` or `en` from the server's preferred locale;
- the `clear` command's amount check and its outcome, with its error handler;
- the event listeners' filters, the command-error → message-key mapping, and the listener
  list that `setup` registers.

Everything is a pure function over immutable datatypes. I/O becomes inputs: the files that
were read and how parsing went, the guild, the author, the error. Sends, purges and prints
become returned decision values.

Files and modules:

| file | module | models |
|---|---|---|
| options.dfy | `Options` | optional values (`getattr(x, a, default)`) |
| text.dfy | `Text` | lower-casing, substring test, `s[:n]`, `str(int)` and its inverse |
| template.dfy | `Template` | format strings as segments, `str.format(**kwargs)` |
| locale.dfy | `Locale` | pack loading, pack selection, `get` |
| examples_locale.dfy | `LocaleExamples` | worked lookups on `"Hello, {user}!"` |
| detect.dfy | `LanguageDetect` | `auto_detect_language` in `run.py` |
| commands.dfy | `Commands` | the command errors the handlers tell apart |
| cards.dfy | `Cards` | the reply cards: style, localized description, lifetime |
| moderation.dfy | `Moderation` | `clear` and `clear_error` |
| events.dfy | `Events` | listener filters, `on_command_error`, `setup` |

How a template is read: `Template.Tokenize` splits a stored string into segments, left to
right:

- `Lit`: literal text, with `{{` and `}}` already turned into single braces;
- `Hole`: a `{name}` keyword field. A `]` outside an index is part of the name, as in Python;
- `Malformed`: a lone brace, an unclosed field, an empty or all-digit field, or a `{` inside
  a field name. Python raises `ValueError` or `IndexError` here, and `get` does not catch
  either.
- `Unsupported`: a field name holding `.`, `[`, `!` or `:` (attribute or index access, a
  conversion, a format spec), including a `{` after a `:`, `!` or `[` in a field.

`Template.Format` works through the segments in order, as Python's formatter does. The first
field it cannot fill decides the outcome. So a `KeyError` on an earlier field wins over a
malformed piece later in the string. `Locale.Get` returns one of three outcomes:

- `Resolved(text)`;
- `Uncaught`: the exception propagates to the caller;
- `NotModelled`: the template uses syntax outside this model.

Lookups are functions of the registry, so identical inputs give identical results. Nothing
in `get` mutates the registry.

## Model

| member | source | states |
|---|---|---|
| Text.Lower | run.py:26 | lower-casing keeps the length and maps every character through the ASCII case map |
| Text.Contains | run.py:27 | `sub in s` holds exactly when `sub` occurs in `s` at some index |
| Text.Take | utilities/events/event_handler.py:50 | `s[:n]` is a prefix of `s` of length `min(len(s), n)` |
| Text.IntToStringRoundTrip | modules/moderation/main.py:30 | the decimal text given as a `count` argument reads back as the same integer |
| Template.Tokenize | utilities/locate/main.py:31 | a format string is read into segments: none for the empty string, every field a keyword name, and only the last segment malformed or unsupported, since that piece stops formatting |
| Template.RenderTokenize | utilities/locate/main.py:31 | reading a format string into segments loses nothing: the segments render back to the same string |
| Template.TokenizeRender | utilities/locate/main.py:31 | a template made of non-empty literals and keyword fields, once rendered, is read back as the same template |
| Template.Format | utilities/locate/main.py:31-33 | formatting succeeds exactly when every segment is a literal or a keyword field and every field name is bound; a KeyError names an unbound field of the template; the other failures come only from malformed or unsupported pieces; with every field bound, a malformed piece and no unsupported one raises, and an unsupported piece and no malformed one leaves the model |
| Template.BracelessFormatsToItself | utilities/locate/main.py:31 | text without braces is one literal, and formatting it with any kwargs gives it back |
| Template.UnboundFieldAfterText | utilities/locate/main.py:31-32 | brace-free text followed by a field that no kwarg binds raises KeyError for that field |
| Template.UnboundFieldComesFirst | utilities/locate/main.py:31-32 | when only the last segment can stop formatting, an unbound field always raises KeyError, whatever that last segment is |
| Template.FormatShowsArgument | utilities/locate/main.py:31 | a successful format contains the argument of every field the template names |
| Template.FormatAppend | utilities/locate/main.py:31 | formatting a concatenation formats the left part first, and the right part matters only if the left part succeeds |
| Template.FormatIgnoresUnusedArguments | utilities/locate/main.py:31 | keyword arguments that agree on the template's field names give the same outcome, whatever else they bind |
| Locale.Load | utilities/locate/main.py:14-20 | a stem is in the registry exactly when some file with that stem parsed; there is one diagnostic line per unparsable file, naming it, in order |
| Locale.LoadKeepsLastParsed | utilities/locate/main.py:14-18 | for a repeated stem the pack of the last file with that stem that parsed is kept |
| Locale.LoadSkipsDecodeErrors | utilities/locate/main.py:16-20 | a file that fails to parse leaves the registry exactly as the other files build it, and loading continues |
| Locale.SelectPack | utilities/locate/main.py:24 | the requested pack if loaded, else the `en` pack if loaded, else an empty pack |
| Locale.Get | utilities/locate/main.py:22-33 | no kwargs gives the stored template verbatim, placeholders and all, or the diagnostic naming the key and the requested language; with kwargs, the template or the diagnostic is formatted: a clean one whose fields are all bound gives its formatted text, any one with an unbound field gives the parameter diagnostic, since that field is reached before the one piece that could stop formatting, display text for an unclean one can only be that diagnostic, a malformed piece reached with every field bound raises out of `get`, and a diagnostic for a key and code without braces comes back unchanged |
| Locale.MissingKeyTextBraceless | utilities/locate/main.py:27 | the diagnostic adds no brace of its own to the key and the code |
| Locale.ResolveStoredTemplate | utilities/locate/main.py:27-33 | a stored clean template resolves, when its arguments bind every field, to a text showing each field's argument, and otherwise to the parameter diagnostic |
| Locale.MissingFieldLikeKeyReadsAsBadParameters | utilities/locate/main.py:27-33 | a missing key `{x}` looked up with `y=1` gives the parameter diagnostic, not the missing-key one, because the diagnostic is formatted |
| Locale.UnknownLanguageFallsBack | utilities/locate/main.py:24-27 | a language with no pack resolves like `en` whenever the `en` pack has the key |
| Locale.MissingKeyTextNamesLanguage | utilities/locate/main.py:27 | the missing-key diagnostic determines the language it names |
| Locale.UnknownLanguageMissingKeyNamesRequest | utilities/locate/main.py:24-33 | when `en` lacks the key too, an unknown language does not resolve like `en`: its diagnostic names the requested code, with no kwargs, or with kwargs when key and code hold no braces |
| Locale.GetIgnoresUnusedArguments | utilities/locate/main.py:31 | non-empty kwargs that agree on the template's fields resolve to the same result |
| Locale.StoredTemplateResolves | utilities/locate/main.py:24-31 | a stored clean template with every field bound resolves to its formatted text |
| LocaleExamples.GreetingFilled | utilities/locate/main.py:24-31 | `"Hello, {user}!"` with `user="Ann"` gives `"Hello, Ann!"`, for `en` and for a language with no pack |
| LocaleExamples.GreetingWithoutArguments | utilities/locate/main.py:31 | with no kwargs, `"Hello, {user}!"` comes back unformatted |
| LocaleExamples.GreetingWrongArgument | utilities/locate/main.py:31-33 | kwargs that miss the field give the parameter diagnostic |
| LocaleExamples.PositionalFieldIsUncaught | utilities/locate/main.py:31-33 | a stored `{}` looked up with `a="b"` raises out of `get` |
| LocaleExamples.StrayBraceAfterBoundFieldIsUncaught | utilities/locate/main.py:31-33 | `{x}}` reads as the field `x` and a lone `}`, and with `x` bound it raises out of `get` |
| LocaleExamples.UnboundFieldBeforeStrayBrace | utilities/locate/main.py:31-33 | `{y}}` looked up with `a="1"` hits the KeyError before the lone `}` and gives the parameter diagnostic |
| LocaleExamples.ClosingBracketInFieldName | utilities/locate/main.py:31 | `{a]}` is the plain field `a]`, filled by the argument of that name |
| LocaleExamples.NestedBraceInFieldName | utilities/locate/main.py:31 | `{a{b}}` is rejected as malformed, while `{a:{b}}` lies outside the model |
| LanguageDetect.Detect | run.py:21-27 | refused with the guild-only notice exactly when there is no guild; otherwise the code is `ru` or `en`, and `ru` exactly when the lower-cased locale contains `ru` |
| LanguageDetect.DetectIgnoresCase | run.py:26 | locales equal up to letter case give the same code |
| LanguageDetect.DetectUpperCaseRussian | run.py:26-27 | the locale `RU` gives `ru` |
| LanguageDetect.NoRussianInAmericanEnglish | run.py:27 | `ru` occurs nowhere in `en-us` |
| LanguageDetect.DetectAmericanEnglish | run.py:26-27 | the locale `en-US` gives `en` |
| LanguageDetect.DetectPrivateChat | run.py:22-24 | no guild gives the refusal, and no code is set |
| Moderation.Clear | modules/moderation/main.py:13-33 | the amount defaults to 5; it is refused exactly outside 1..100, with the invalid-amount card (`max`, 5 s); otherwise purge limit amount+1 and the success card (`count`, 3 s) |
| Moderation.InvalidAmountNamesMaximum | modules/moderation/main.py:14-22 | the refusal passes `max="100"` and deletes itself after 5 seconds |
| Moderation.ClearReportsRequestedCount | modules/moderation/main.py:25-31 | the success card's `count` reads back as the amount, one less than the purge limit |
| Moderation.ClearRepliesShowNumbers | modules/moderation/main.py:14-31 | with templates whose only field is `count` (or `max`), the confirmation shows the amount asked for and the refusal shows `100` |
| Moderation.ClearDefaultsToFive | modules/moderation/main.py:13 | with no amount, 6 messages are purged |
| Moderation.ClearErrorAsWritten | modules/moderation/main.py:36-44 | replies only to MissingPermissions, and fails with AttributeError exactly when no locale code is set on the context |
| Moderation.ClearErrorAsWrittenFailsOnMissingPermissions | modules/moderation/main.py:37-41 | the permission failure with no locale code set makes the handler fail |
| Moderation.ClearError | modules/moderation/main.py:36-44 | never fails, replies exactly to MissingPermissions with the permissions key (5 s), and agrees with the code as written whenever a locale code is set |
| Events.OnMessage | utilities/events/event_handler.py:35-40 | messages by bots are ignored, all others are handed to command processing unchanged |
| Events.OnMessageDelete | utilities/events/event_handler.py:42-52 | deletions are logged exactly for human authors, with the content cut to 100 characters |
| Events.OnMessageEdit | utilities/events/event_handler.py:54-65 | edits are logged exactly when the author is human and the content changed, with both texts cut to 100 characters |
| Events.ListenersShareBotFilter | utilities/events/event_handler.py:35-65 | a message is processed exactly when its deletion would be logged, an edit is logged only for such a message, and reactions pass the same bot filter |
| Events.ExcerptKeepsShortText | utilities/events/event_handler.py:50 | a logged excerpt is the whole text up to 100 characters, else exactly its first 100 |
| Events.OnVoiceStateUpdate | utilities/events/event_handler.py:133-143 | logs exactly a change of channel; the action is "joined" exactly when there was no previous channel, else "moved"; the channel label falls back to the unknown-channel text |
| Events.VoiceLogsOnlyChannelChanges | utilities/events/event_handler.py:139 | staying out of voice or staying in a renamed channel is not logged, and whether a change is logged does not depend on its direction |
| Events.LeavingVoiceIsLoggedAsMove | utilities/events/event_handler.py:140-143 | leaving voice is logged as a move to an unknown channel |
| Events.OnReaction | utilities/events/event_handler.py:145-165 | reactions are logged exactly when the user is not a bot |
| Events.OnMemberJoin | utilities/events/event_handler.py:86-98 | with a welcome channel, the welcome key in the guild's code (default `en`) with `user` bound to the mention |
| Events.WelcomeShowsMention | utilities/events/event_handler.py:90-97 | with a welcome template whose only field is `user`, the welcome text shows the mention; a template naming another field gives the parameter diagnostic |
| Events.ErrorRequest | utilities/events/event_handler.py:74-81 | each key is chosen exactly for its error kind (missing permissions, bot missing permissions, cooldown, anything else); cooldown passes `retry_after`, anything else passes `error` with the error's text, and the permission errors pass no arguments |
| Events.OnCommandError | utilities/events/event_handler.py:67-83 | CommandNotFound gets no reply; every other error gets a 10-second error card, the same card type `clear` uses, in the context's code (default `en`) with its kind's key |
| Events.ErrorKeysDistinguishKinds | utilities/events/event_handler.py:74-81 | two errors share a key only when they are of the same kind, and then take the same argument names |
| Events.Lookup | utilities/events/event_handler.py:194 | a listener found by name carries that name |
| Events.LookupName | utilities/events/event_handler.py:194 | every listener is found under its own name |
| Events.Setup | utilities/events/event_handler.py:193-194 | registration succeeds exactly when every name has a listener, and then it registers one listener per name, in order |
| Events.EventNamesCoverEveryListenerOnce | utilities/events/event_handler.py:173-191 | the list holds 17 distinct names, each names a listener, and every listener is named, so each is registered exactly once |

## Behaviour worth noting

- With no keyword arguments, `get` returns the stored template verbatim, placeholders and
  all (`utilities/locate/main.py:31`). `LocaleExamples.GreetingWithoutArguments` shows
  `"Hello, {user}!"` coming back unformatted.
- A language with no pack resolves like `en` whenever the `en` pack has the key
  (`Locale.UnknownLanguageFallsBack`, lines 24-27). When the `en` pack lacks the key too, a
  language other than `en` gets the diagnostic naming the requested code, and so a different
  result than `en`. This holds with no keyword arguments, or with a key and code that hold
  no braces (`Locale.UnknownLanguageMissingKeyNamesRequest`).
- With keyword arguments, the missing-key diagnostic goes through `format` as well
  (lines 27 and 31). A key or code holding braces can therefore turn it into the parameter
  diagnostic (`Locale.MissingFieldLikeKeyReadsAsBadParameters`) or an uncaught error.
- Only `KeyError` is caught (line 32). With keyword arguments, a malformed piece or a
  positional field that is reached with every field bound raises out of `get`, which the
  model returns as `Locale.Resolution.Uncaught` (`Locale.Get`,
  `LocaleExamples.PositionalFieldIsUncaught`, `LocaleExamples.StrayBraceAfterBoundFieldIsUncaught`).
- Both diagnostics are in Russian.

## Findings

| source | as written | input that shows it | evidently intended | confidence | as-written member | corrected member |
|---|---|---|---|---|---|---|
| modules/moderation/main.py:37-41 | on MissingPermissions, `clear_error` reads `ctx.locale_code` unconditionally. That attribute is set only by the before-invoke hook, and nextcord runs command checks before that hook. | a member without Manage Messages sends `?clear` in a server | reply with the permissions card, reading the code with the `en` default as `on_command_error` does (utilities/events/event_handler.py:72) | medium, not executed; relies on nextcord running checks before before-invoke hooks | Moderation.ClearErrorAsWrittenFailsOnMissingPermissions | Moderation.ClearError |

## Left out

- Reading the languages directory (`mkdir`, `glob`, `open`, `json.load`). `Locale.Load` takes
  the files in enumeration order, each with its path, stem and parse outcome.
- Language files whose JSON is not an object of strings. The source stores whatever
  `json.load` returns (`utilities/locate/main.py:18`). A top-level list or number then fails
  at lookup with `AttributeError` from `lang_data.get` (line 27). A non-string template comes back as is
  without kwargs, and raises `AttributeError` on `format` with kwargs. `Locale.Parse` holds
  only string-valued objects.
- Read errors other than `JSONDecodeError` (`OSError`, `UnicodeDecodeError`). These abort
  start-up in the source.
- The rest of the `str.format` grammar: conversions, format specs, attribute and index
  access, nested fields in a format spec. A template using them, once every field before
  them is bound, resolves to `NotModelled`, and the model says
  nothing more about it. Positional fields are recognised by ASCII digits only.
- Keyword-argument values are modelled as the text `str()` gives for them. Formatting of
  non-string objects is not modelled.
- Text.Lower: handles only ASCII letters, not all of Python's Unicode `str.lower`. Only
  `R` and `U` lower-case to `r` and `u`, so the `ru` test is unaffected.
- `round(error.retry_after)` on a float. `Commands.CommandOnCooldown` carries the
  already-rounded number of seconds.
- All platform I/O: sending cards, purging, DMs to the guild owner (`on_guild_join`),
  `change_presence`, and `add_listener` side effects. These appear only as returned
  decisions.
- The cards themselves (`utilities/ui/ui.py`): colours, titles, views and modals. A card is
  its style, its localized description and its lifetime.
- Messages outside a server. Messages are taken to be in server channels, which have a
  name. In a private chat `channel.name` raises `AttributeError` at
  `utilities/events/event_handler.py:48` and `:60`, so `on_message_delete` and
  `on_message_edit` fail there instead of logging.
- Printed log lines: their emoji, layout and wording. Logs are records of the fields they
  show. The voice action texts and unknown-channel text are kept, as they are the rule's
  output.
- Listeners that only print (`on_ready`, `on_connect`, `on_disconnect`, `on_resumed`,
  `on_member_remove`, `on_guild_join`, `on_guild_remove`, `on_member_ban`,
  `on_member_unban`). Only their registration is modelled.
- Three nextcord behaviours: the `has_permissions` check, converting the `amount` argument
  to an integer, and error dispatch to both the local and the global handler.
- `run.py` start-up: bot construction, the `on_ready` module setup, and reading
  `config/token.json`.
- async scheduling and the bot run loop.

=== FILE: cards.dfy ===
/** The cards the bot replies with, in `clear` and in the global command-error handler. */
module Cards {
  import opened Locale

  /** An error card or a success card. */
  datatype Style = ErrorCard | SuccessCard

  /** A card sent in reply: its style, the localized text of its description, and the
      seconds after which it deletes itself. */
  datatype Reply = Reply(style: Style, description: Request, deleteAfter: nat)
}

=== FILE: commands.dfy ===
/** Command errors the bot's error handlers tell apart. */
module Commands {

  datatype CommandError =
    | CommandNotFound
    | MissingPermissions                // the invoking member lacks a required permission
    | BotMissingPermissions             // the bot itself lacks one
    | CommandOnCooldown(retryAfter: int) // whole seconds until the command may run again
    | Other(text: string)               // any other error, by its `str()`
}

=== FILE: detect.dfy ===
/** The hook run before every command: the command must come from a server, and the
    server's preferred locale picks the language of the replies. */
module LanguageDetect {
  import Text
  import opened Options

  /** The server a command was sent in; `preferredLocale` is the text of its preferred locale. */
  datatype Guild = Guild(preferredLocale: string)

  /** The hook refuses a command sent outside a server: it sends `notice` and raises
      NoPrivateMessage, and no locale code is set. Otherwise it sets the context's locale code. */
  datatype Detection = Refused(notice: string) | Detected(code: string)

  const GuildOnlyNotice: string := "❌ Бот работает только на серверах!"

  /** `locale`, lower-cased, contains "ru" somewhere. */
  ghost predicate NamesRussian(locale: string)
  {
    exists i :: Text.OccursAt("ru", Text.Lower(locale), i)
  }

  /** The locale code for a command sent in `guild` (None when sent in a private chat). */
  function Detect(guild: Option<Guild>): (d: Detection)
    ensures d.Refused? <==> guild.None?
    ensures d.Refused? ==> d.notice == GuildOnlyNotice
    ensures d.Detected? ==> d.code == "ru" || d.code == "en"
    ensures d.Detected? ==>
      (d.code == "ru" <==> NamesRussian(guild.value.preferredLocale))
  {
    match guild
    case None => Refused(GuildOnlyNotice)
    case Some(g) =>
      var serverLocale := Text.Lower(g.preferredLocale);
      var found := Text.Contains(serverLocale, "ru");
      assert found <==> NamesRussian(g.preferredLocale);
      var code := if found then "ru" else "en";
      assert code == "ru" <==> found by { assert "en"[0] != "ru"[0]; }
      Detected(code)
  }

  /** Detection ignores letter case: locales that agree once lower-cased give the same code. */
  lemma DetectIgnoresCase(a: string, b: string)
    requires Text.Lower(a) == Text.Lower(b)
    ensures Detect(Some(Guild(a))) == Detect(Some(Guild(b)))
  {
  }

  /** An upper-case Russian locale is recognised. */
  lemma DetectUpperCaseRussian()
    ensures Detect(Some(Guild("RU"))) == Detected("ru")
  {
  }

  /** "en-us" holds no "ru": neither at 0, 1 and 2, nor at 3 where the letters differ. */
  lemma NoRussianInAmericanEnglish()
    ensures forall i :: !Text.OccursAt("ru", "en-us", i)
  {
    var us := "en-us";
    forall i ensures !Text.OccursAt("ru", us, i) {
      if 0 <= i && i + 2 <= |us| {
        assert us[i..i + 2][0] == us[i];
        assert us[i] != 'r';
      }
    }
  }

  /** An American English locale selects English. */
  lemma DetectAmericanEnglish()
    ensures Detect(Some(Guild("en-US"))) == Detected("en")
  {
    assert Text.Lower("en-US") == "en-us";
    NoRussianInAmericanEnglish();
  }

  /** A command outside any server is refused. */
  lemma DetectPrivateChat()
    ensures Detect(None) == Refused(GuildOnlyNotice)
  {
  }
}

=== FILE: events.dfy ===
/** The bot's event listeners: which events they ignore, what they log, the reply the
    global command-error handler sends, and the list `setup` registers. */
module Events {
  import Text
  import opened Options
  import opened Locale
  import opened Template
  import opened Commands
  import opened Cards

  /** Logged message text is cut to this many characters. */
  const LogExcerpt: nat := 100

  datatype Author = Author(isBot: bool, displayName: string)

  /** A message in a server channel, named by `channelName`. */
  datatype Message = Message(author: Author, channelName: string, content: string)

  /** `on_message`: a message is either ignored or handed to command processing. */
  datatype MessageAction = Ignored | ProcessCommands(message: Message)

  function OnMessage(m: Message): (a: MessageAction)
    ensures a.Ignored? <==> m.author.isBot
    ensures a.ProcessCommands? ==> a.message == m
  {
    if m.author.isBot then Ignored else ProcessCommands(m)
  }

  /** The fields of a logged deletion or edit; message text is already cut to LogExcerpt. */
  datatype DeleteLog = DeleteLog(channelName: string, author: string, content: string)

  datatype EditLog = EditLog(channelName: string, author: string, before: string, after: string)

  /** `on_message_delete`: deletions by bots are not logged. */
  function OnMessageDelete(m: Message): (log: Option<DeleteLog>)
    ensures log.Some? <==> !m.author.isBot
    ensures log.Some? ==> log.value.content == Text.Take(m.content, LogExcerpt)
    ensures log.Some? ==> log.value.channelName == m.channelName && log.value.author == m.author.displayName
  {
    if m.author.isBot then None
    else Some(DeleteLog(m.channelName, m.author.displayName, Text.Take(m.content, LogExcerpt)))
  }

  /** `on_message_edit`: logged only for a human author whose text actually changed. */
  function OnMessageEdit(before: Message, after: Message): (log: Option<EditLog>)
    ensures log.Some? <==> !before.author.isBot && before.content != after.content
    ensures log.Some? ==>
      && log.value.before == Text.Take(before.content, LogExcerpt)
      && log.value.after == Text.Take(after.content, LogExcerpt)
      && log.value.channelName == before.channelName
      && log.value.author == before.author.displayName
  {
    if before.author.isBot || before.content == after.content then None
    else Some(EditLog(before.channelName, before.author.displayName,
                      Text.Take(before.content, LogExcerpt), Text.Take(after.content, LogExcerpt)))
  }

  /** A logged excerpt is the whole text when it is short enough, and otherwise its first
      LogExcerpt characters. */
  lemma ExcerptKeepsShortText(m: Message)
    requires !m.author.isBot
    ensures |m.content| <= LogExcerpt ==> OnMessageDelete(m).value.content == m.content
    ensures |m.content| > LogExcerpt ==>
      |OnMessageDelete(m).value.content| == LogExcerpt
      && m.content == OnMessageDelete(m).value.content + m.content[LogExcerpt..]
  {
  }

  /** The message listeners agree on whom they pass over: a message handed to command
      processing is one whose deletion is logged, an edit is logged only for a message whose
      deletion would be, and a reaction by the author is logged exactly when their messages
      are processed. */
  lemma ListenersShareBotFilter(m: Message, after: Message, emoji: string, added: bool)
    ensures OnMessage(m).Ignored? <==> OnMessageDelete(m).None?
    ensures OnMessageEdit(m, after).Some? ==> OnMessageDelete(m).Some?
    ensures OnReaction(m.author.isBot, emoji, added).None? <==> OnMessage(m).Ignored?
  {
  }

  /** A voice channel; two channels are the same when their ids are. */
  datatype Channel = Channel(id: nat, name: string)

  function SameChannel(a: Option<Channel>, b: Option<Channel>): (same: bool)
  {
    match (a, b)
    case (None, None) => true
    case (Some(x), Some(y)) => x.id == y.id
    case _ => false
  }

  datatype VoiceLog = VoiceLog(member: string, action: string, channel: string)

  const Joined: string := "подключился"
  const Moved: string := "перешел"
  const UnknownChannel: string := "неизвестный канал"

  /** `on_voice_state_update`: logs a change of channel. With no previous channel the member
      joined, otherwise moved; with no new channel (they left) the channel is named unknown. */
  function OnVoiceStateUpdate(member: string, before: Option<Channel>, after: Option<Channel>): (log: Option<VoiceLog>)
    ensures log.Some? <==> !SameChannel(before, after)
    ensures log.Some? ==> log.value.member == member
    ensures log.Some? ==> (log.value.action == Joined <==> before.None?)
    ensures log.Some? ==> log.value.action in {Joined, Moved}
    ensures log.Some? ==> log.value.channel == (if after.Some? then after.value.name else UnknownChannel)
  {
    if SameChannel(before, after) then None
    else
      var action := if before.None? then Joined else Moved;
      var channel := if after.Some? then after.value.name else UnknownChannel;
      assert Joined != Moved by { assert |Joined| != |Moved|; }
      Some(VoiceLog(member, action, channel))
  }

  /** Only a change of channel is logged: staying out of voice, or staying in a channel that
      was renamed, is silent; and whether a change is logged does not depend on its direction. */
  lemma VoiceLogsOnlyChannelChanges(member: string, before: Option<Channel>, after: Option<Channel>, c: Channel, newName: string)
    ensures OnVoiceStateUpdate(member, None, None).None?
    ensures OnVoiceStateUpdate(member, Some(c), Some(Channel(c.id, newName))).None?
    ensures OnVoiceStateUpdate(member, before, after).Some? <==> OnVoiceStateUpdate(member, after, before).Some?
  {
  }

  /** Leaving voice altogether is logged as a move to an unknown channel. */
  lemma LeavingVoiceIsLoggedAsMove(member: string, c: Channel)
    ensures OnVoiceStateUpdate(member, Some(c), None) == Some(VoiceLog(member, Moved, UnknownChannel))
  {
  }

  datatype ReactionLog = ReactionLog(emoji: string, added: bool)

  /** `on_reaction_add` and `on_reaction_remove`: reactions by bots are not logged. */
  function OnReaction(userIsBot: bool, emoji: string, added: bool): (log: Option<ReactionLog>)
    ensures log.Some? <==> !userIsBot
    ensures log.Some? ==> log.value == ReactionLog(emoji, added)
  {
    if userIsBot then None else Some(ReactionLog(emoji, added))
  }

  /** `on_member_join`: with a channel named "welcome", a welcome text for the new member in
      the guild's locale code ("en" when the guild carries none). */
  function OnMemberJoin(hasWelcomeChannel: bool, guildLocale: Option<string>, mention: string): (r: Option<Request>)
    ensures r.Some? <==> hasWelcomeChannel
    ensures r.Some? ==> r.value == Request("welcome.message", guildLocale.OrElse("en"), map["user" := mention])
  {
    if hasWelcomeChannel then Some(Request("welcome.message", guildLocale.OrElse("en"), map["user" := mention]))
    else None
  }

  /** With a welcome template that uses no field but `user`, the welcome text shows the
      mention wherever the template asks for it; a template naming any other field gives the
      parameter diagnostic instead. */
  lemma WelcomeShowsMention(reg: Registry, guildLocale: Option<string>, mention: string)
    requires var pack := SelectPack(reg, guildLocale.OrElse("en"));
      "welcome.message" in pack && Clean(Tokenize(pack["welcome.message"]))
    ensures var t := Tokenize(SelectPack(reg, guildLocale.OrElse("en"))["welcome.message"]);
      var r := Resolve(reg, OnMemberJoin(true, guildLocale, mention).value);
      && (Names(t) <= {"user"} ==> r.Resolved? && ("user" in Names(t) ==> Text.Contains(r.text, mention)))
      && (!(Names(t) <= {"user"}) ==> r == Resolved(BadParametersText("welcome.message")))
  {
    var req := OnMemberJoin(true, guildLocale, mention).value;
    assert req.args.Keys == {"user"};
    ResolveStoredTemplate(reg, req);
  }

  /** The message key for each kind of error, with the arguments it is given. The error
      kinds are disjoint, so the order in which the source tests them does not matter. */
  function ErrorRequest(e: CommandError, lang: string): (r: Request)
    requires !e.CommandNotFound?
    ensures r.lang == lang
    ensures r.key == "error.missing_perms" <==> e.MissingPermissions?
    ensures r.key == "error.bot_missing_perms" <==> e.BotMissingPermissions?
    ensures r.key == "error.cooldown" <==> e.CommandOnCooldown?
    ensures r.key == "error.generic" <==> e.Other?
    ensures e.CommandOnCooldown? ==> r.args == map["retry_after" := Text.IntToString(e.retryAfter)]
    ensures e.Other? ==> r.args == map["error" := e.text]
    ensures e.MissingPermissions? || e.BotMissingPermissions? ==> r.args == map[]
  {
    match e
    case MissingPermissions => Request("error.missing_perms", lang, map[])
    case BotMissingPermissions => Request("error.bot_missing_perms", lang, map[])
    case CommandOnCooldown(s) => Request("error.cooldown", lang, map["retry_after" := Text.IntToString(s)])
    case Other(text) => Request("error.generic", lang, map["error" := text])
  }

  /** `on_command_error`, given the locale code the context carries (None when the hook did
      not set one). Unknown commands are passed over in silence. */
  function OnCommandError(localeCode: Option<string>, e: CommandError): (r: Option<Reply>)
    ensures r.None? <==> e.CommandNotFound?
    ensures r.Some? ==> r.value == Reply(ErrorCard, ErrorRequest(e, localeCode.OrElse("en")), 10)
  {
    if e.CommandNotFound? then None
    else Some(Reply(ErrorCard, ErrorRequest(e, localeCode.OrElse("en")), 10))
  }

  /** The keys tell the kinds apart: two errors get the same key only if they are of the same
      kind, and the argument names depend on the kind alone. */
  lemma ErrorKeysDistinguishKinds(e1: CommandError, e2: CommandError, lang: string)
    requires !e1.CommandNotFound? && !e2.CommandNotFound?
    requires ErrorRequest(e1, lang).key == ErrorRequest(e2, lang).key
    ensures e1.MissingPermissions? <==> e2.MissingPermissions?
    ensures e1.BotMissingPermissions? <==> e2.BotMissingPermissions?
    ensures e1.CommandOnCooldown? <==> e2.CommandOnCooldown?
    ensures ErrorRequest(e1, lang).args.Keys == ErrorRequest(e2, lang).args.Keys
  {
  }

  /** The event handlers of the bot, one per listener method. */
  datatype Listener =
    | OnReady | OnConnect | OnDisconnect | OnResumed
    | OnMessageListener | OnMessageDeleteListener | OnMessageEditListener | OnCommandErrorListener
    | OnMemberJoinListener | OnMemberRemove | OnGuildJoin | OnGuildRemove
    | OnMemberBan | OnMemberUnban | OnVoiceStateUpdateListener
    | OnReactionAdd | OnReactionRemove

  /** The method name of each listener, which is also the event it answers. */
  function Name(l: Listener): (name: string)
  {
    match l
    case OnReady => "on_ready"
    case OnConnect => "on_connect"
    case OnDisconnect => "on_disconnect"
    case OnResumed => "on_resumed"
    case OnMessageListener => "on_message"
    case OnMessageDeleteListener => "on_message_delete"
    case OnMessageEditListener => "on_message_edit"
    case OnCommandErrorListener => "on_command_error"
    case OnMemberJoinListener => "on_member_join"
    case OnMemberRemove => "on_member_remove"
    case OnGuildJoin => "on_guild_join"
    case OnGuildRemove => "on_guild_remove"
    case OnMemberBan => "on_member_ban"
    case OnMemberUnban => "on_member_unban"
    case OnVoiceStateUpdateListener => "on_voice_state_update"
    case OnReactionAdd => "on_reaction_add"
    case OnReactionRemove => "on_reaction_remove"
  }

  /** `getattr(handler, name)` restricted to the listener methods: None for any other name. */
  function Lookup(name: string): (l: Option<Listener>)
    ensures l.Some? ==> Name(l.value) == name
  {
    if name == "on_ready" then Some(OnReady)
    else if name == "on_connect" then Some(OnConnect)
    else if name == "on_disconnect" then Some(OnDisconnect)
    else if name == "on_resumed" then Some(OnResumed)
    else if name == "on_message" then Some(OnMessageListener)
    else if name == "on_message_delete" then Some(OnMessageDeleteListener)
    else if name == "on_message_edit" then Some(OnMessageEditListener)
    else if name == "on_command_error" then Some(OnCommandErrorListener)
    else if name == "on_member_join" then Some(OnMemberJoinListener)
    else if name == "on_member_remove" then Some(OnMemberRemove)
    else if name == "on_guild_join" then Some(OnGuildJoin)
    else if name == "on_guild_remove" then Some(OnGuildRemove)
    else if name == "on_member_ban" then Some(OnMemberBan)
    else if name == "on_member_unban" then Some(OnMemberUnban)
    else if name == "on_voice_state_update" then Some(OnVoiceStateUpdateListener)
    else if name == "on_reaction_add" then Some(OnReactionAdd)
    else if name == "on_reaction_remove" then Some(OnReactionRemove)
    else None
  }

  /** Every listener is found under its own name. */
  lemma LookupName(l: Listener)
    ensures Lookup(Name(l)) == Some(l)
  {
  }

  /** The event names `setup` walks through, in order. */
  const EventNames: seq<string> := [
    "on_ready", "on_connect", "on_disconnect", "on_resumed",
    "on_message", "on_message_delete", "on_message_edit", "on_command_error",
    "on_member_join", "on_member_remove", "on_guild_join", "on_guild_remove",
    "on_member_ban", "on_member_unban", "on_voice_state_update",
    "on_reaction_add", "on_reaction_remove"
  ]

  /** `setup`: registers the listener found under each name, in order. A name with no listener
      makes it fail, given here as None: the attribute lookup raises AttributeError when the
      handler has no such attribute, and `add_listener` raises TypeError when it is not a
      coroutine. */
  method Setup(names: seq<string>) returns (registered: Option<seq<Listener>>)
    ensures registered.Some? <==> forall i :: 0 <= i < |names| ==> Lookup(names[i]).Some?
    ensures registered.Some? ==> |registered.value| == |names|
    ensures registered.Some? ==> forall i :: 0 <= i < |names| ==> Name(registered.value[i]) == names[i]
  {
    var acc: seq<Listener> := [];
    var k := 0;
    while k < |names|
      invariant 0 <= k <= |names|
      invariant |acc| == k
      invariant forall i :: 0 <= i < k ==> Lookup(names[i]).Some? && Name(acc[i]) == names[i]
    {
      var l := Lookup(names[k]);
      if l.None? {
        return None;
      }
      acc := acc + [l.value];
      k := k + 1;
    }
    return Some(acc);
  }

  /** The names `setup` uses are seventeen distinct listener names, and every listener is
      among them: each handler is registered exactly once. */
  lemma EventNamesCoverEveryListenerOnce()
    ensures |EventNames| == 17
    ensures forall i :: 0 <= i < |EventNames| ==> Lookup(EventNames[i]).Some?
    ensures forall i, j :: 0 <= i < j < |EventNames| ==> EventNames[i] != EventNames[j]
    ensures forall l: Listener :: Name(l) in EventNames
  {
  }
}

=== FILE: examples_locale.dfy ===
/** Worked lookups on a one-language registry holding "Hello, {user}!". */
module LocaleExamples {
  import opened Template
  import opened Locale
  import Text

  const Greeting: Template := [Lit("Hello, "), Hole("user"), Lit("!")]

  const Greetings: Registry := map["en" := map["greet.hello" := "Hello, {user}!"]]

  lemma GreetingLeadNeedsNoEscape()
    ensures Escape("Hello, ") == "Hello, "
  {
    EscapeBraceless("Hello, ");
  }

  lemma GreetingRendersTail()
    ensures Render(Greeting[1..]) == "{user}!"
  {
    EscapeChar('!');
    assert Greeting[2..][1..] == [];
    assert Render(Greeting[2..]) == "!";
    assert Greeting[1..][0] == Hole("user");
    assert Greeting[1..][1..] == Greeting[2..];
    assert Render(Greeting[1..]) == "{" + "user" + "}" + "!";
    assert "{" + "user" + "}" + "!" == "{user}!";
  }

  lemma GreetingRendersInTwoParts()
    ensures Render(Greeting) == "Hello, " + "{user}!"
  {
    assert Render(Greeting) == Escape("Hello, ") + Render(Greeting[1..]);
    GreetingLeadNeedsNoEscape();
    GreetingRendersTail();
  }

  lemma GreetingRenders()
    ensures Render(Greeting) == "Hello, {user}!"
  {
    GreetingRendersInTwoParts();
    assert "Hello, " + "{user}!" == "Hello, {user}!";
  }

  /** "Hello, {user}!" reads as a literal, one field and a literal. */
  lemma GreetingTokens()
    ensures Tokenize("Hello, {user}!") == Greeting
  {
    assert IsKeywordName("user") by {
      assert !Text.IsDigit("user"[0]);
    }
    assert Normal(Greeting);
    TokenizeRender(Greeting);
    GreetingRenders();
  }

  lemma GreetingNames()
    ensures Clean(Greeting) && Names(Greeting) == {"user"}
  {
    assert Greeting[1].name == "user";
  }

  lemma GreetingFormats()
    ensures Format(Greeting, map["user" := "Ann"]) == Filled("Hello, Ann!")
  {
  }

  /** The field is filled in, for the default language and for a language with no pack alike. */
  lemma GreetingFilled(lang: string)
    requires lang == "en" || lang == "fr"
    ensures Get(Greetings, "greet.hello", lang, map["user" := "Ann"]) == Resolved("Hello, Ann!")
  {
    var pack := SelectPack(Greetings, lang);
    assert pack == map["greet.hello" := "Hello, {user}!"];
    GreetingTokens();
    GreetingNames();
    GreetingFormats();
  }

  /** With no arguments the template comes back as stored, field and all. */
  lemma GreetingWithoutArguments()
    ensures Get(Greetings, "greet.hello", "en", map[]) == Resolved("Hello, {user}!")
  {
    assert SelectPack(Greetings, "en") == map["greet.hello" := "Hello, {user}!"];
  }

  /** Arguments that miss the field give the parameter diagnostic. */
  lemma GreetingWrongArgument()
    ensures Get(Greetings, "greet.hello", "en", map["name" := "Ann"]) == Resolved(BadParametersText("greet.hello"))
  {
    assert SelectPack(Greetings, "en") == map["greet.hello" := "Hello, {user}!"];
    var t := Tokenize(SelectPack(Greetings, "en")["greet.hello"]);
    GreetingTokens();
    GreetingNames();
    assert "user" in Names(t) && "user" !in map["name" := "Ann"];
    assert !(Names(t) <= map["name" := "Ann"].Keys);
    assert Clean(t);
    assert map["name" := "Ann"] != map[] by {
      assert "name" in map["name" := "Ann"];
    }
  }

  /** A `{` inside a field name is rejected, while after `:` it may start a nested field of a
      format spec, which lies outside the model. */
  lemma NestedBraceInFieldName()
    ensures Tokenize("{a{b}}") == [Malformed("{a{b}}")]
    ensures Tokenize("{a:{b}}") == [Unsupported("{a:{b}}")]
  {
    assert BraceIndex("{a{b}}", 1) == 2;
    assert !NameEnds("{a{b}}"[1..2]);
    assert BraceIndex("{a:{b}}", 1) == 3;
    assert NameEnds("{a:{b}}"[1..3]) by { assert "{a:{b}}"[1..3][1] == ':'; }
  }

  /** With arguments, a positional field `{}` raises out of the lookup: only KeyError is caught. */
  lemma PositionalFieldIsUncaught()
    ensures Get(map["en" := map["k" := "{}"]], "k", "en", map["a" := "b"]) == Uncaught
  {
    assert BraceIndex("{}", 1) == 1;
    assert Tokenize("{}") == [Malformed("{}")];
    assert [Malformed("{}")][0].Malformed?;
    assert "a" in map["a" := "b"];
  }

  /** A lone `}` after a bound field raises too, once the field before it is filled. */
  lemma StrayBraceAfterBoundFieldIsUncaught()
    ensures Tokenize("{x}}") == [Hole("x"), Malformed("}")]
    ensures Get(map["en" := map["k" := "{x}}"]], "k", "en", map["x" := "1"]) == Uncaught
  {
    assert IsKeywordName("x") by { assert !Text.IsDigit("x"[0]); }
    TokenizeHole("x", "}");
    assert "{" + "x" + "}" + "}" == "{x}}";
    assert Tokenize("}") == [Malformed("}")];
    var t := [Hole("x"), Malformed("}")];
    assert t[1].Malformed?;
    assert "x" in map["x" := "1"];
  }

  /** An unbound field before a stray `}` raises KeyError first, which the lookup catches. */
  lemma UnboundFieldBeforeStrayBrace()
    ensures Get(map["en" := map["k" := "{y}}"]], "k", "en", map["a" := "1"]) == Resolved(BadParametersText("k"))
  {
    assert IsKeywordName("y") by { assert !Text.IsDigit("y"[0]); }
    TokenizeHole("y", "}");
    assert "{" + "y" + "}" + "}" == "{y}}";
    var t := Tokenize("{y}}");
    assert t[0] == Hole("y") && "y" in Names(t);
    assert "a" in map["a" := "1"];
  }

  /** A `]` outside an index is part of a plain field name. */
  lemma ClosingBracketInFieldName()
    ensures Tokenize("{a]}") == [Hole("a]")]
    ensures Get(map["en" := map["k" := "{a]}"]], "k", "en", map["a]" := "1"]) == Resolved("1")
  {
    assert IsKeywordName("a]") by {
      assert !Text.IsDigit("a]"[0]);
      assert "a]"[0] !in FieldSyntax && "a]"[1] !in FieldSyntax;
    }
    TokenizeHole("a]", "");
    assert "{" + "a]" + "}" + "" == "{a]}";
    assert [Hole("a]")] + Tokenize("") == [Hole("a]")];
    assert "a]" in map["a]" := "1"];
    var f := Format([Hole("a]")], map["a]" := "1"]);
    assert [Hole("a]")][1..] == [];
    assert f == Filled("1" + "");
  }
}

=== FILE: locale.dfy ===
/** The locale resolver: a registry of language packs loaded once at start-up, and the
    lookup every handler uses to turn a message key into display text. */
module Locale {
  import opened Template
  import Text

  /** One language: message key to template string. */
  type Pack = map<string, string>

  /** Language code to pack. */
  type Registry = map<string, Pack>

  /** The language used when the requested one has no pack. */
  const DefaultLanguage: string := "en"

  /** How reading one language file ended: its JSON object, or a JSON syntax error. */
  datatype Parse = Parsed(pack: Pack) | DecodeError

  /** One `*.json` file of the languages directory: its path, its stem (the language code)
      and the outcome of reading it. */
  datatype LangFile = LangFile(path: string, stem: string, content: Parse)

  /** The registry built from the files, and the diagnostic lines printed for files that
      did not parse. */
  datatype Loaded = Loaded(registry: Registry, diagnostics: seq<string>)

  function DecodeDiagnostic(path: string): (line: string)
  {
    "Ошибка в файле " + path + "! Проверьте синтаксис JSON."
  }

  /** One step of the loading loop: store a parsed pack under its stem, replacing any earlier
      one, or report the file and carry on. */
  function LoadStep(acc: Loaded, f: LangFile): (next: Loaded)
  {
    match f.content
    case Parsed(pack) => Loaded(acc.registry[f.stem := pack], acc.diagnostics)
    case DecodeError => Loaded(acc.registry, acc.diagnostics + [DecodeDiagnostic(f.path)])
  }

  predicate ParsedAt(files: seq<LangFile>, i: int, stem: string)
  {
    0 <= i < |files| && files[i].stem == stem && files[i].content.Parsed?
  }

  /** The paths of the files that failed to parse, in order. */
  function FailedPaths(files: seq<LangFile>): (paths: seq<string>)
  {
    if files == [] then []
    else
      var last := files[|files| - 1];
      FailedPaths(files[..|files| - 1]) + (if last.content.DecodeError? then [last.path] else [])
  }

  /** The loading loop over the files in enumeration order, starting from an empty registry. */
  function Load(files: seq<LangFile>): (r: Loaded)
    ensures forall stem :: stem in r.registry <==> exists i :: ParsedAt(files, i, stem)
    ensures |r.diagnostics| == |FailedPaths(files)|
    ensures forall k :: 0 <= k < |r.diagnostics| ==> r.diagnostics[k] == DecodeDiagnostic(FailedPaths(files)[k])
    decreases |files|
  {
    if files == [] then Loaded(map[], [])
    else
      var init := files[..|files| - 1];
      var last := files[|files| - 1];
      var prev := Load(init);
      var r := LoadStep(prev, last);
      assert forall stem :: stem in r.registry <==> exists i :: ParsedAt(files, i, stem) by {
        forall stem ensures stem in r.registry <==> exists i :: ParsedAt(files, i, stem) {
          if stem in r.registry {
            if last.content.Parsed? && last.stem == stem {
              assert ParsedAt(files, |init|, stem);
            } else {
              var i :| ParsedAt(init, i, stem);
              assert ParsedAt(files, i, stem);
            }
          }
          if i :| ParsedAt(files, i, stem) {
            if i < |init| {
              assert ParsedAt(init, i, stem);
            }
          }
        }
      }
      r
  }

  /** Duplicate stems: the pack kept for a stem is the one from the last file with that stem
      that parsed; later files that failed do not disturb it. */
  lemma {:induction false} LoadKeepsLastParsed(files: seq<LangFile>, i: int)
    requires 0 <= i < |files| && files[i].content.Parsed?
    requires forall j :: i < j < |files| ==> !ParsedAt(files, j, files[i].stem)
    ensures files[i].stem in Load(files).registry
    ensures Load(files).registry[files[i].stem] == files[i].content.pack
    decreases |files|
  {
    if i < |files| - 1 {
      var init := files[..|files| - 1];
      assert init[i] == files[i];
      forall j | i < j < |init| ensures !ParsedAt(init, j, init[i].stem) {
        assert init[j] == files[j];
        assert !ParsedAt(files, j, files[i].stem);
      }
      LoadKeepsLastParsed(init, i);
      assert !ParsedAt(files, |files| - 1, files[i].stem);
    }
  }

  /** A file that fails to parse is skipped: the registry is the one the other files give. */
  lemma {:induction false} LoadSkipsDecodeErrors(before: seq<LangFile>, bad: LangFile, after: seq<LangFile>)
    requires bad.content.DecodeError?
    ensures Load(before + [bad] + after).registry == Load(before + after).registry
    decreases |after|
  {
    if after == [] {
      assert (before + [bad] + after)[..|before| + 1 - 1] == before;
      assert before + after == before;
    } else {
      var init := after[..|after| - 1];
      var last := after[|after| - 1];
      assert (before + [bad] + after)[..|before + [bad] + after| - 1] == before + [bad] + init;
      assert (before + [bad] + after)[|before + [bad] + after| - 1] == last;
      assert (before + after)[..|before + after| - 1] == before + init;
      assert (before + after)[|before + after| - 1] == last;
      LoadSkipsDecodeErrors(before, bad, init);
    }
  }

  /** Requested pack, else the default language's pack, else an empty pack. */
  function SelectPack(reg: Registry, lang: string): (p: Pack)
    ensures lang in reg ==> p == reg[lang]
    ensures lang !in reg && DefaultLanguage in reg ==> p == reg[DefaultLanguage]
    ensures lang !in reg && DefaultLanguage !in reg ==> p == map[]
  {
    if lang in reg then reg[lang]
    else if DefaultLanguage in reg then reg[DefaultLanguage]
    else map[]
  }

  /** The text returned when the selected pack has no such key; it names the requested language. */
  function MissingKeyText(key: string, lang: string): (text: string)
  {
    "[Ключ '" + key + "' не найден для языка '" + lang + "']"
  }

  /** The text returned when formatting raised a KeyError. */
  function BadParametersText(key: string): (text: string)
  {
    "[Ошибка: неверные параметры для ключа '" + key + "']"
  }

  /** What a lookup gives: display text, an exception the lookup does not catch, or a
      template using str.format syntax outside this model. */
  datatype Resolution = Resolved(text: string) | Uncaught | NotModelled

  /** A message key, the language it is wanted in, and the keyword arguments for its fields. */
  datatype Request = Request(key: string, lang: string, args: map<string, string>)

  /** The missing-key text carries no brace of its own, so it is brace-free whenever the key
      and the language code are. */
  lemma MissingKeyTextBraceless(key: string, lang: string)
    requires Braceless(key) && Braceless(lang)
    ensures MissingKeyText(key, lang) != [] && Braceless(MissingKeyText(key, lang))
  {
    var a, b, c := "[Ключ '", "' не найден для языка '", "']";
    assert Braceless(a) && Braceless(b) && Braceless(c);
    BracelessAppend(a, key);
    BracelessAppend(a + key, b);
    BracelessAppend(a + key + b, lang);
    BracelessAppend(a + key + b + lang, c);
  }

  /** Looks `key` up for `lang`, falling back to the missing-key text, and fills in `kwargs`.
      With arguments, the fallback text is formatted like any stored template. */
  function Get(reg: Registry, key: string, lang: string, kwargs: map<string, string>): (r: Resolution)
    ensures key in SelectPack(reg, lang) && kwargs == map[] ==> r == Resolved(SelectPack(reg, lang)[key])
    ensures key !in SelectPack(reg, lang) && kwargs == map[] ==> r == Resolved(MissingKeyText(key, lang))
    ensures key !in SelectPack(reg, lang) && Braceless(key) && Braceless(lang) ==>
      r == Resolved(MissingKeyText(key, lang))
    ensures kwargs != map[] ==>
      var pack := SelectPack(reg, lang);
      var t := Tokenize(if key in pack then pack[key] else MissingKeyText(key, lang));
      && (Clean(t) && Names(t) <= kwargs.Keys ==> r == Resolved(Format(t, kwargs).value))
      && (!(Names(t) <= kwargs.Keys) ==> r == Resolved(BadParametersText(key)))
      && (r.Resolved? && !Clean(t) ==> r.text == BadParametersText(key))
      && (r.Uncaught? ==> HasMalformed(t))
      && (HasMalformed(t) && !HasUnsupported(t) && Names(t) <= kwargs.Keys ==> r.Uncaught?)
      && (r.NotModelled? ==> HasUnsupported(t))
  {
    var pack := SelectPack(reg, lang);
    var message := if key in pack then pack[key] else MissingKeyText(key, lang);
    if kwargs == map[] then Resolved(message)
    else
      assert key !in pack && Braceless(key) && Braceless(lang) ==> Format(Tokenize(message), kwargs) == Filled(message) by {
        if key !in pack && Braceless(key) && Braceless(lang) {
          MissingKeyTextBraceless(key, lang);
          BracelessFormatsToItself(message, kwargs);
        }
      }
      assert !(Names(Tokenize(message)) <= kwargs.Keys) ==> Format(Tokenize(message), kwargs).KeyMissing? by {
        if !(Names(Tokenize(message)) <= kwargs.Keys) {
          UnboundFieldComesFirst(Tokenize(message), kwargs);
        }
      }
      match Format(Tokenize(message), kwargs)
      case Filled(s) => Resolved(s)
      case KeyMissing(_) => Resolved(BadParametersText(key))
      case Raised => Uncaught
      case OutsideModel => NotModelled
  }

  /** The lookup a handler's request stands for. */
  function Resolve(reg: Registry, req: Request): (r: Resolution)
  {
    Get(reg, req.key, req.lang, req.args)
  }

  /** A language with no pack reads from the default pack whenever that pack has the key. */
  lemma UnknownLanguageFallsBack(reg: Registry, key: string, lang: string, kwargs: map<string, string>)
    requires lang !in reg && key in SelectPack(reg, DefaultLanguage)
    ensures Get(reg, key, lang, kwargs) == Get(reg, key, DefaultLanguage, kwargs)
  {
  }

  /** The missing-key text determines the language it names. */
  lemma MissingKeyTextNamesLanguage(key: string, a: string, b: string)
    requires MissingKeyText(key, a) == MissingKeyText(key, b)
    ensures a == b
  {
    var prefix := "[Ключ '" + key + "' не найден для языка '";
    var ta := MissingKeyText(key, a);
    assert ta == prefix + a + "']";
    assert ta[|prefix|..|ta| - 2] == a;
    assert MissingKeyText(key, b)[|prefix|..|ta| - 2] == b;
  }

  /** When the default pack lacks the key as well, a language with no pack does NOT read like
      the default language: the diagnostic names the language that was asked for. With
      arguments this needs a key and a language code without braces, since the diagnostic
      is then formatted. */
  lemma UnknownLanguageMissingKeyNamesRequest(reg: Registry, key: string, lang: string, kwargs: map<string, string>)
    requires lang !in reg && lang != DefaultLanguage && key !in SelectPack(reg, DefaultLanguage)
    requires kwargs == map[] || (Braceless(key) && Braceless(lang))
    ensures Get(reg, key, lang, kwargs) == Resolved(MissingKeyText(key, lang))
    ensures Get(reg, key, lang, kwargs) != Get(reg, key, DefaultLanguage, kwargs)
  {
    assert Braceless(DefaultLanguage);
    if MissingKeyText(key, lang) == MissingKeyText(key, DefaultLanguage) {
      MissingKeyTextNamesLanguage(key, lang, DefaultLanguage);
    }
  }

  /** Keyword arguments that agree on the fields of the template resolve to the same text. */
  lemma GetIgnoresUnusedArguments(reg: Registry, key: string, lang: string, kw1: map<string, string>, kw2: map<string, string>)
    requires kw1 != map[] && kw2 != map[]
    requires key in SelectPack(reg, lang)
    requires var t := Tokenize(SelectPack(reg, lang)[key]);
      forall n :: n in Names(t) ==> (n in kw1 <==> n in kw2) && (n in kw1 ==> kw1[n] == kw2[n])
    ensures Get(reg, key, lang, kw1) == Get(reg, key, lang, kw2)
  {
    FormatIgnoresUnusedArguments(Tokenize(SelectPack(reg, lang)[key]), kw1, kw2);
  }

  /** A template in tokenizer shape, stored in the selected pack and given an argument for
      each of its fields, resolves to its formatted text. */
  lemma StoredTemplateResolves(reg: Registry, key: string, lang: string, t: Template, kwargs: map<string, string>)
    requires Normal(t) && Names(t) <= kwargs.Keys && kwargs != map[]
    requires key in SelectPack(reg, lang) && SelectPack(reg, lang)[key] == Render(t)
    ensures Get(reg, key, lang, kwargs) == Resolved(Format(t, kwargs).value)
  {
    TokenizeRender(t);
  }

  /** A request for a stored clean template: when its arguments bind every field, the text it
      resolves to shows each field's argument; otherwise it resolves to the parameter
      diagnostic. */
  lemma ResolveStoredTemplate(reg: Registry, req: Request)
    requires req.args != map[] && req.key in SelectPack(reg, req.lang)
    requires Clean(Tokenize(SelectPack(reg, req.lang)[req.key]))
    ensures var t := Tokenize(SelectPack(reg, req.lang)[req.key]);
      var r := Resolve(reg, req);
      && (Names(t) <= req.args.Keys ==> r.Resolved? && forall n :: n in Names(t) ==> Text.Contains(r.text, req.args[n]))
      && (!(Names(t) <= req.args.Keys) ==> r == Resolved(BadParametersText(req.key)))
  {
    var t := Tokenize(SelectPack(reg, req.lang)[req.key]);
    if Names(t) <= req.args.Keys {
      forall n | n in Names(t) ensures Text.Contains(Resolve(reg, req).text, req.args[n]) {
        FormatShowsArgument(t, req.args, n);
      }
    }
  }

  /** A missing key that itself looks like a field is formatted too: with arguments that do
      not bind it, the lookup reports bad parameters instead of the missing key. */
  lemma MissingFieldLikeKeyReadsAsBadParameters()
    ensures Get(map[], "{x}", DefaultLanguage, map["y" := "1"]) == Resolved(BadParametersText("{x}"))
  {
    var lead, tail := "[Ключ '", "' не найден для языка 'en']";
    assert MissingKeyText("{x}", DefaultLanguage) == lead + "{" + "x" + "}" + tail;
    assert Braceless(lead);
    assert IsKeywordName("x") by { assert !Text.IsDigit("x"[0]); }
    UnboundFieldAfterText(lead, "x", tail, map["y" := "1"]);
    assert "y" in map["y" := "1"];
    assert "{x}" !in SelectPack(map[], DefaultLanguage);
  }
}

=== FILE: moderation.dfy ===
/** The `clear` moderation command and its own error handler. */
module Moderation {
  import Text
  import opened Options
  import opened Locale
  import opened Template
  import opened Commands
  import opened Cards

  /** Messages removed when `clear` is given no amount. */
  const DefaultAmount: int := 5

  /** The most messages one `clear` may remove. */
  const MaxAmount: int := 100

  /** `clear` either refuses the amount, or purges `limit` messages (the command message
      included) and confirms. */
  datatype ClearOutcome = Rejected(reply: Reply) | Purged(limit: int, reply: Reply)

  function InvalidAmountReply(lang: string): (reply: Reply)
  {
    Reply(ErrorCard, Request("moderation.clear.invalid_amount", lang, map["max" := Text.IntToString(MaxAmount)]), 5)
  }

  /** The refusal tells the user the maximum, as the text "100". */
  lemma InvalidAmountNamesMaximum(lang: string)
    ensures InvalidAmountReply(lang).description.args == map["max" := "100"]
    ensures InvalidAmountReply(lang).deleteAfter == 5
  {
    assert Text.NatToString(1) == "1";
    assert Text.NatToString(10) == "10";
    assert Text.NatToString(100) == "100";
  }

  /** `clear [amount]` in a context whose locale code is `lang`. */
  function Clear(amount: Option<int>, lang: string): (o: ClearOutcome)
    ensures var n := amount.OrElse(DefaultAmount);
      && (o.Rejected? <==> n < 1 || MaxAmount < n)
      && (o.Rejected? ==> o.reply == InvalidAmountReply(lang))
      && (o.Purged? ==> o.limit == n + 1 && 2 <= o.limit <= MaxAmount + 1)
      && (o.Purged? ==> o.reply.style == SuccessCard && o.reply.deleteAfter == 3)
      && (o.Purged? ==> o.reply.description == Request("moderation.clear.success", lang, map["count" := Text.IntToString(n)]))
  {
    var n := amount.OrElse(DefaultAmount);
    if n <= 0 || n > MaxAmount then Rejected(InvalidAmountReply(lang))
    else Purged(n + 1, Reply(SuccessCard, Request("moderation.clear.success", lang, map["count" := Text.IntToString(n)]), 3))
  }

  /** The success card reports the number of messages asked for, one fewer than the purge
      limit: the command message itself is purged too. */
  lemma ClearReportsRequestedCount(amount: Option<int>, lang: string)
    requires Clear(amount, lang).Purged?
    ensures var o := Clear(amount, lang);
      "count" in o.reply.description.args
      && Text.ParseInt(o.reply.description.args["count"]) == o.limit - 1 == amount.OrElse(DefaultAmount)
  {
    Text.IntToStringRoundTrip(amount.OrElse(DefaultAmount));
  }

  /** With a success template that uses no field but `count`, the confirmation shows the
      number of messages asked for wherever the template asks for it; the refusal likewise
      shows "100" when its template uses no field but `max`. */
  lemma ClearRepliesShowNumbers(reg: Registry, amount: Option<int>, lang: string)
    ensures var o := Clear(amount, lang);
      var key := o.reply.description.key;
      var name := if o.Purged? then "count" else "max";
      var shown := if o.Purged? then Text.IntToString(amount.OrElse(DefaultAmount)) else "100";
      key in SelectPack(reg, lang) && Clean(Tokenize(SelectPack(reg, lang)[key]))
        && Names(Tokenize(SelectPack(reg, lang)[key])) == {name} ==>
      var r := Resolve(reg, o.reply.description);
      r.Resolved? && Text.Contains(r.text, shown)
  {
    var o := Clear(amount, lang);
    var req := o.reply.description;
    if o.Rejected? {
      InvalidAmountNamesMaximum(lang);
    }
    if req.key in SelectPack(reg, lang) && Clean(Tokenize(SelectPack(reg, lang)[req.key])) {
      assert req.args != map[] by {
        if o.Purged? { assert "count" in req.args; } else { assert "max" in req.args; }
      }
      ResolveStoredTemplate(reg, req);
    }
  }

  /** With no amount, five messages and the command are purged. */
  lemma ClearDefaultsToFive(lang: string)
    ensures Clear(None, lang).Purged? && Clear(None, lang).limit == 6
  {
  }

  /** What an error handler does: nothing, reply, or fail itself with AttributeError. */
  datatype Handling = Silent | Replied(reply: Reply) | AttributeErrorRaised

  /** `clear_error` as written: on MissingPermissions it reads the context's locale code
      unconditionally. `localeCode` is None when the before-invoke hook has not set it,
      which is the case when the permission check itself failed. */
  function ClearErrorAsWritten(localeCode: Option<string>, e: CommandError): (h: Handling)
    ensures h.AttributeErrorRaised? <==> e.MissingPermissions? && localeCode.None?
    ensures h.Silent? <==> !e.MissingPermissions?
    ensures h.Replied? ==> h.reply == Reply(ErrorCard, Request("moderation.clear.error_permissions", localeCode.value, map[]), 5)
  {
    if !e.MissingPermissions? then Silent
    else if localeCode.None? then AttributeErrorRaised
    else Replied(Reply(ErrorCard, Request("moderation.clear.error_permissions", localeCode.value, map[]), 5))
  }

  /** A member without Manage Messages who runs `clear` meets the permission check before
      any locale code is set, and the handler meant to tell them so fails instead. */
  lemma ClearErrorAsWrittenFailsOnMissingPermissions()
    ensures ClearErrorAsWritten(None, MissingPermissions) == AttributeErrorRaised
  {
  }

  /** `clear_error` reading the locale code with the "en" default, as the global error
      handler does: it replies exactly for MissingPermissions and never fails. */
  function ClearError(localeCode: Option<string>, e: CommandError): (h: Handling)
    ensures !h.AttributeErrorRaised?
    ensures h.Replied? <==> e.MissingPermissions?
    ensures h.Replied? ==> h.reply == Reply(ErrorCard, Request("moderation.clear.error_permissions", localeCode.OrElse("en"), map[]), 5)
    ensures localeCode.Some? ==> h == ClearErrorAsWritten(localeCode, e)
  {
    if e.MissingPermissions? then
      Replied(Reply(ErrorCard, Request("moderation.clear.error_permissions", localeCode.OrElse("en"), map[]), 5))
    else Silent
  }
}

=== FILE: options.dfy ===
/** A value the bot may find missing: the guild of a private message, the channel a member
    left or joined, the locale code a hook may not have set. */
module Options {

  datatype Option<T> = None | Some(value: T) {

    /** What Python's `getattr(obj, name, fallback)` gives: the value if present, else `fallback`. */
    function OrElse(fallback: T): (r: T)
      ensures Some? ==> r == value
      ensures None? ==> r == fallback
    {
      if Some? then value else fallback
    }
  }
}

=== FILE: template.dfy ===
/** Message templates as Python's `str.format` reads them when it is called with keyword
    arguments only: literal text, `{{` and `}}` escapes, and `{name}` replacement fields.
    Everything else a format string may hold is kept as a segment that stops formatting. */
module Template {
  import Text

  datatype Segment =
    | Lit(text: string)       // literal output (escaped braces already undone)
    | Hole(name: string)      // `{name}`: replaced by the keyword argument `name`
    | Malformed(raw: string)  // the rest of the string from a piece str.format rejects
    | Unsupported(raw: string) // the rest of the string from a field this model does not cover

  /** A template: the segments of a format string, left to right. */
  type Template = seq<Segment>

  /** Characters that end a plain field name: braces, attribute access `.`, index access `[`,
      a conversion `!` and a format spec `:`. A `]` outside an index is part of the name. */
  const FieldSyntax: string := "{}[.!:"

  /** A field name str.format looks up among its keyword arguments. An empty or all-digit
      name would be positional instead, and this model treats none of FieldSyntax. */
  predicate IsKeywordName(n: string)
  {
    |n| > 0 && !Text.AllDigits(n) && forall i :: 0 <= i < |n| ==> n[i] !in FieldSyntax
  }

  /** Whether `n` holds a character after which str.format no longer reads a plain field
      name: a conversion `!`, a format spec `:` or an index `[`. */
  predicate NameEnds(n: string)
  {
    exists i :: 0 <= i < |n| && n[i] in ":!["
  }

  predicate IsBrace(c: char)
  {
    c == '{' || c == '}'
  }

  /** Text with no brace at all. */
  predicate Braceless(x: string)
  {
    forall i :: 0 <= i < |x| ==> !IsBrace(x[i])
  }

  /** The first index at or after `i` holding a brace, or |s| when there is none. */
  function BraceIndex(s: string, i: nat): (j: nat)
    requires i <= |s|
    ensures i <= j <= |s|
    ensures j < |s| ==> IsBrace(s[j])
    ensures forall k :: i <= k < j ==> !IsBrace(s[k])
    decreases |s| - i
  {
    if i == |s| then i else if IsBrace(s[i]) then i else BraceIndex(s, i + 1)
  }

  /** Prepends literal text, merging it with a literal segment that already leads `t`. */
  function ConsLit(x: string, t: Template): (r: Template)
    ensures |r| > 0 && r[0].Lit?
    ensures r[1..] == if |t| > 0 && t[0].Lit? then t[1..] else t
  {
    if |t| > 0 && t[0].Lit? then [Lit(x + t[0].text)] + t[1..] else [Lit(x)] + t
  }

  /** Splits a format string into segments, scanning left to right as str.format does. */
  function Tokenize(s: string): (t: Template)
    ensures t == [] <==> s == []
    ensures forall i :: 0 <= i < |t| - 1 ==> t[i].Lit? || t[i].Hole?
    ensures forall i :: 0 <= i < |t| && t[i].Hole? ==> IsKeywordName(t[i].name)
    decreases |s|
  {
    if s == [] then []
    else if s[0] == '{' then
      if |s| > 1 && s[1] == '{' then ConsLit("{", Tokenize(s[2..]))
      else
        var j := BraceIndex(s, 1);
        if j == |s| then [Malformed(s)]             // `{` never closed
        else if s[j] == '{' then
          // a `{` inside the field name proper is rejected; after `:`, `!` or `[` it may
          // open a nested field of a format spec, which this model does not cover
          if NameEnds(s[1..j]) then [Unsupported(s)] else [Malformed(s)]
        else
          var name := s[1..j];
          if name == [] || Text.AllDigits(name) then [Malformed(s)]  // positional field, no positional argument
          else if IsKeywordName(name) then [Hole(name)] + Tokenize(s[j + 1..])
          else [Unsupported(s)]
    else if s[0] == '}' then
      if |s| > 1 && s[1] == '}' then ConsLit("}", Tokenize(s[2..]))
      else [Malformed(s)]                           // a lone `}`
    else ConsLit([s[0]], Tokenize(s[1..]))
  }

  /** Literal text written back as format-string source: every brace doubled. */
  function Escape(x: string): (s: string)
  {
    if x == [] then []
    else if IsBrace(x[0]) then [x[0], x[0]] + Escape(x[1..])
    else [x[0]] + Escape(x[1..])
  }

  function RenderSegment(g: Segment): (s: string)
  {
    match g
    case Lit(x) => Escape(x)
    case Hole(n) => "{" + n + "}"
    case Malformed(r) => r
    case Unsupported(r) => r
  }

  /** The format string a template was read from. */
  function Render(t: Template): (s: string)
  {
    if t == [] then [] else RenderSegment(t[0]) + Render(t[1..])
  }

  /** The names of all replacement fields in `t`. */
  function Names(t: Template): (names: set<string>)
  {
    set i | 0 <= i < |t| && t[i].Hole? :: t[i].name
  }

  predicate HasMalformed(t: Template)
  {
    exists i :: 0 <= i < |t| && t[i].Malformed?
  }

  predicate HasUnsupported(t: Template)
  {
    exists i :: 0 <= i < |t| && t[i].Unsupported?
  }

  /** Only literal text and named fields. */
  predicate Clean(t: Template)
  {
    forall i :: 0 <= i < |t| ==> t[i].Lit? || t[i].Hole?
  }

  /** The shape Tokenize produces for a clean string: no empty or adjacent literals and
      only keyword field names. */
  predicate Normal(t: Template)
  {
    && Clean(t)
    && (forall i :: 0 <= i < |t| && t[i].Lit? ==> t[i].text != [])
    && (forall i :: 0 <= i < |t| && t[i].Hole? ==> IsKeywordName(t[i].name))
    && (forall i :: 0 < i < |t| && t[i].Lit? ==> !t[i - 1].Lit?)
  }

  /** What `template.format(**kwargs)` gives. */
  datatype Formatted =
    | Filled(value: string)    // the formatted string
    | KeyMissing(name: string) // KeyError for the first field with no argument
    | Raised                   // ValueError or IndexError
    | OutsideModel             // a field using syntax this model does not cover

  /** Substitutes keyword arguments into `t` from left to right; the first field that
      cannot be filled decides the outcome. */
  function Format(t: Template, kwargs: map<string, string>): (r: Formatted)
    ensures r.Filled? <==> Clean(t) && Names(t) <= kwargs.Keys
    ensures r.KeyMissing? ==> r.name in Names(t) && r.name !in kwargs
    ensures r.Raised? ==> HasMalformed(t)
    ensures r.OutsideModel? ==> HasUnsupported(t)
    ensures HasMalformed(t) && !HasUnsupported(t) && Names(t) <= kwargs.Keys ==> r.Raised?
    ensures HasUnsupported(t) && !HasMalformed(t) && Names(t) <= kwargs.Keys ==> r.OutsideModel?
  {
    if t == [] then Filled([])
    else
      var rest := Format(t[1..], kwargs);
      assert Names(t) == (if t[0].Hole? then {t[0].name} else {}) + Names(t[1..]) by {
        forall n | n in Names(t) ensures n in (if t[0].Hole? then {t[0].name} else {}) + Names(t[1..]) {
          var i :| 0 <= i < |t| && t[i].Hole? && t[i].name == n;
          if i > 0 { assert t[1..][i - 1] == t[i]; }
        }
        forall n | n in Names(t[1..]) ensures n in Names(t) {
          var i :| 0 <= i < |t[1..]| && t[1..][i].Hole? && t[1..][i].name == n;
          assert t[i + 1] == t[1..][i];
        }
      }
      assert Clean(t) <==> (t[0].Lit? || t[0].Hole?) && Clean(t[1..]) by {
        if (t[0].Lit? || t[0].Hole?) && Clean(t[1..]) {
          forall i | 0 <= i < |t| ensures t[i].Lit? || t[i].Hole? {
            if i > 0 { assert t[i] == t[1..][i - 1]; }
          }
        }
      }
      assert HasMalformed(t[1..]) ==> HasMalformed(t) by {
        if HasMalformed(t[1..]) {
          var i :| 0 <= i < |t[1..]| && t[1..][i].Malformed?;
          assert t[i + 1] == t[1..][i];
        }
      }
      assert HasUnsupported(t[1..]) ==> HasUnsupported(t) by {
        if HasUnsupported(t[1..]) {
          var i :| 0 <= i < |t[1..]| && t[1..][i].Unsupported?;
          assert t[i + 1] == t[1..][i];
        }
      }
      match t[0]
      case Lit(x) => if rest.Filled? then Filled(x + rest.value) else rest
      case Hole(n) =>
        if n !in kwargs then KeyMissing(n)
        else if rest.Filled? then Filled(kwargs[n] + rest.value) else rest
      case Malformed(_) => Raised
      case Unsupported(_) => OutsideModel
  }

  lemma {:induction false} EscapeAppend(a: string, b: string)
    ensures Escape(a + b) == Escape(a) + Escape(b)
    decreases |a|
  {
    if a == [] {
      assert a + b == b;
    } else {
      assert (a + b)[0] == a[0];
      assert (a + b)[1..] == a[1..] + b;
      EscapeAppend(a[1..], b);
      var p := if IsBrace(a[0]) then [a[0], a[0]] else [a[0]];
      assert Escape(a) == p + Escape(a[1..]);
      assert Escape(a + b) == p + Escape(a[1..] + b);
    }
  }

  lemma EscapeChar(c: char)
    ensures Escape([c]) == if IsBrace(c) then [c, c] else [c]
  {
  }

  /** Text without braces needs no escaping. */
  lemma {:induction false} EscapeBraceless(x: string)
    requires Braceless(x)
    ensures Escape(x) == x
  {
    if x != [] {
      EscapeBraceless(x[1..]);
      assert x == [x[0]] + x[1..];
    }
  }

  lemma RenderConsLit(x: string, t: Template)
    ensures Render(ConsLit(x, t)) == Escape(x) + Render(t)
  {
    if |t| > 0 && t[0].Lit? {
      EscapeAppend(x, t[0].text);
      assert ConsLit(x, t)[1..] == t[1..];
    } else {
      assert ConsLit(x, t)[1..] == t;
    }
  }

  /** An escaped brace renders back to its two characters. */
  lemma RenderTokenizeEscape(s: string)
    requires |s| > 1 && IsBrace(s[0]) && s[1] == s[0]
    requires Render(Tokenize(s[2..])) == s[2..]
    ensures Render(Tokenize(s)) == s
  {
    RenderConsLit([s[0]], Tokenize(s[2..]));
    EscapeChar(s[0]);
    assert s == [s[0], s[0]] + s[2..];
  }

  lemma TokenizeField(s: string, j: nat)
    requires |s| > 0 && s[0] == '{' && !(|s| > 1 && s[1] == '{')
    requires j == BraceIndex(s, 1) && j < |s| && s[j] == '}' && IsKeywordName(s[1..j])
    ensures Tokenize(s) == [Hole(s[1..j])] + Tokenize(s[j + 1..])
  {
  }

  lemma SplitField(s: string, j: nat)
    requires 1 <= j < |s| && s[0] == '{' && s[j] == '}'
    ensures s == "{" + s[1..j] + "}" + s[j + 1..]
  {
  }

  lemma RenderHole(name: string, t: Template)
    ensures Render([Hole(name)] + t) == "{" + name + "}" + Render(t)
  {
    assert ([Hole(name)] + t)[1..] == t;
  }

  /** A keyword field renders back to its braces and name. */
  lemma RenderTokenizeField(s: string, j: nat)
    requires |s| > 0 && s[0] == '{' && !(|s| > 1 && s[1] == '{')
    requires j == BraceIndex(s, 1) && j < |s| && s[j] == '}' && IsKeywordName(s[1..j])
    requires Render(Tokenize(s[j + 1..])) == s[j + 1..]
    ensures Render(Tokenize(s)) == s
  {
    TokenizeField(s, j);
    RenderHole(s[1..j], Tokenize(s[j + 1..]));
    SplitField(s, j);
  }

  /** A character other than a brace renders back to itself. */
  lemma RenderTokenizePlain(s: string)
    requires |s| > 0 && !IsBrace(s[0])
    requires Render(Tokenize(s[1..])) == s[1..]
    ensures Render(Tokenize(s)) == s
  {
    RenderConsLit([s[0]], Tokenize(s[1..]));
    EscapeChar(s[0]);
    assert s == [s[0]] + s[1..];
  }

  /** Tokenizing loses nothing: the segments render back to the very string they came from. */
  lemma {:induction false} RenderTokenize(s: string)
    ensures Render(Tokenize(s)) == s
    decreases |s|
  {
    if s == [] {
    } else if |s| > 1 && IsBrace(s[0]) && s[1] == s[0] {
      RenderTokenize(s[2..]);
      RenderTokenizeEscape(s);
    } else if s[0] == '{' {
      var j := BraceIndex(s, 1);
      if j < |s| && s[j] == '}' && IsKeywordName(s[1..j]) {
        RenderTokenize(s[j + 1..]);
        RenderTokenizeField(s, j);
      }
    } else if s[0] != '}' {
      RenderTokenize(s[1..]);
      RenderTokenizePlain(s);
    }
  }

  lemma ConsLitConsLit(a: string, b: string, t: Template)
    ensures ConsLit(a, ConsLit(b, t)) == ConsLit(a + b, t)
  {
    if |t| > 0 && t[0].Lit? {
      assert a + (b + t[0].text) == (a + b) + t[0].text;
    }
  }

  /** Escaped literal text tokenizes back to one literal, merged into what follows. */
  lemma {:induction false} TokenizeEscape(x: string, rest: string)
    requires x != []
    ensures Tokenize(Escape(x) + rest) == ConsLit(x, Tokenize(rest))
    decreases |x|
  {
    var s := Escape(x) + rest;
    var tail := Escape(x[1..]) + rest;
    if IsBrace(x[0]) {
      assert s == [x[0], x[0]] + tail;
      assert s[2..] == tail;
      if x[0] == '{' {
        assert Tokenize(s) == ConsLit("{", Tokenize(tail));
      } else {
        assert Tokenize(s) == ConsLit("}", Tokenize(tail));
      }
    } else {
      assert s == [x[0]] + tail;
      assert s[1..] == tail;
    }
    assert Tokenize(s) == ConsLit([x[0]], Tokenize(tail));
    if x[1..] == [] {
      assert x == [x[0]];
      assert tail == rest;
    } else {
      TokenizeEscape(x[1..], rest);
      ConsLitConsLit([x[0]], x[1..], Tokenize(rest));
      assert [x[0]] + x[1..] == x;
    }
  }

  /** Brace-free text is one literal, and formatting it with any arguments gives it back. */
  lemma BracelessFormatsToItself(x: string, kwargs: map<string, string>)
    requires x != [] && Braceless(x)
    ensures Tokenize(x) == [Lit(x)]
    ensures Format(Tokenize(x), kwargs) == Filled(x)
  {
    EscapeBraceless(x);
    TokenizeEscape(x, []);
    assert x + [] == x;
    assert [Lit(x)][1..] == [];
  }

  /** Concatenating brace-free texts gives brace-free text. */
  lemma BracelessAppend(a: string, b: string)
    requires Braceless(a) && Braceless(b)
    ensures Braceless(a + b)
  {
    forall i | 0 <= i < |a + b| ensures !IsBrace((a + b)[i]) {
      if i >= |a| { assert (a + b)[i] == b[i - |a|]; }
    }
  }

  lemma BraceIndexSkips(s: string, i: nat, j: nat)
    requires i <= j < |s| && IsBrace(s[j])
    requires forall k :: i <= k < j ==> !IsBrace(s[k])
    ensures BraceIndex(s, i) == j
    decreases j - i
  {
  }

  /** A keyword field tokenizes back to one hole, followed by the tokens of what follows. */
  lemma TokenizeHole(n: string, rest: string)
    requires IsKeywordName(n)
    ensures Tokenize("{" + n + "}" + rest) == [Hole(n)] + Tokenize(rest)
  {
    var s := "{" + n + "}" + rest;
    assert s[1..|n| + 1] == n;
    assert forall k :: 1 <= k < |n| + 1 ==> s[k] == n[k - 1];
    assert forall k :: 0 <= k < |n| ==> !IsBrace(n[k]) by {
      forall k | 0 <= k < |n| ensures !IsBrace(n[k]) {
        assert n[k] !in FieldSyntax;
      }
    }
    BraceIndexSkips(s, 1, |n| + 1);
    assert s[|n| + 2..] == rest;
  }

  /** A template in the shape Tokenize produces renders to a string that tokenizes back to it. */
  lemma {:induction false} TokenizeRender(t: Template)
    requires Normal(t)
    ensures Tokenize(Render(t)) == t
    decreases |t|
  {
    if t != [] {
      var tail := t[1..];
      assert Normal(tail) by {
        forall i | 0 < i < |tail| && tail[i].Lit? ensures !tail[i - 1].Lit? {
          assert tail[i] == t[i + 1] && tail[i - 1] == t[i];
        }
      }
      TokenizeRender(tail);
      match t[0]
      case Lit(x) =>
        TokenizeEscape(x, Render(tail));
        assert |tail| > 0 ==> !tail[0].Lit? by {
          if |tail| > 0 { assert tail[0] == t[1]; }
        }
        assert [Lit(x)] + tail == t;
      case Hole(n) =>
        TokenizeHole(n, Render(tail));
        assert "{" + n + "}" + Render(tail) == Render(t);
        assert [Hole(n)] + tail == t;
    }
  }

  /** Brace-free text followed by a keyword field: formatting stops at the field when no
      argument binds it. */
  lemma UnboundFieldAfterText(lead: string, n: string, tail: string, kwargs: map<string, string>)
    requires lead != [] && Braceless(lead) && IsKeywordName(n) && n !in kwargs
    ensures Format(Tokenize(lead + "{" + n + "}" + tail), kwargs) == KeyMissing(n)
  {
    EscapeBraceless(lead);
    assert lead + "{" + n + "}" + tail == lead + ("{" + n + "}" + tail);
    TokenizeEscape(lead, "{" + n + "}" + tail);
    TokenizeHole(n, tail);
    var t := [Lit(lead)] + ([Hole(n)] + Tokenize(tail));
    assert t[1..] == [Hole(n)] + Tokenize(tail);
  }

  /** Formatting a concatenation formats the left part first; only if it succeeds does the
      right part matter. */
  lemma {:induction false} FormatAppend(t1: Template, t2: Template, kwargs: map<string, string>)
    ensures Format(t1 + t2, kwargs) ==
      var f1 := Format(t1, kwargs);
      if !f1.Filled? then f1
      else
        var f2 := Format(t2, kwargs);
        if f2.Filled? then Filled(f1.value + f2.value) else f2
    decreases |t1|
  {
    if t1 == [] {
      assert t1 + t2 == t2;
    } else {
      assert (t1 + t2)[1..] == t1[1..] + t2;
      assert (t1 + t2)[0] == t1[0];
      FormatAppend(t1[1..], t2, kwargs);
      match t1[0]
      case Lit(x) =>
        var f := Format(t1[1..], kwargs);
        if f.Filled? && Format(t2, kwargs).Filled? {
          assert x + (f.value + Format(t2, kwargs).value) == (x + f.value) + Format(t2, kwargs).value;
        }
      case Hole(n) =>
        var f := Format(t1[1..], kwargs);
        if n in kwargs && f.Filled? && Format(t2, kwargs).Filled? {
          assert kwargs[n] + (f.value + Format(t2, kwargs).value) == (kwargs[n] + f.value) + Format(t2, kwargs).value;
        }
      case Malformed(_) =>
      case Unsupported(_) =>
    }
  }

  /** When only the last segment can stop formatting, as Tokenize guarantees, a field with no
      argument is always reached first: the outcome is a KeyError, whatever the last segment is. */
  lemma {:induction false} UnboundFieldComesFirst(t: Template, kwargs: map<string, string>)
    requires forall i :: 0 <= i < |t| - 1 ==> t[i].Lit? || t[i].Hole?
    requires !(Names(t) <= kwargs.Keys)
    ensures Format(t, kwargs).KeyMissing?
    decreases |t|
  {
    var n :| n in Names(t) && n !in kwargs;
    var i :| 0 <= i < |t| && t[i].Hole? && t[i].name == n;
    if !(t[0].Hole? && t[0].name !in kwargs) {
      assert i > 0 && t[1..][i - 1] == t[i];
      assert n in Names(t[1..]);
      assert forall k :: 0 <= k < |t[1..]| - 1 ==> t[1..][k] == t[k + 1];
      UnboundFieldComesFirst(t[1..], kwargs);
      assert t[0].Lit? || t[0].Hole?;
    }
  }

  /** A successful format is the first segment's text followed by the format of the rest. */
  lemma FormatFilledSplit(t: Template, kwargs: map<string, string>)
    requires t != [] && Format(t, kwargs).Filled?
    ensures Format(t[1..], kwargs).Filled?
    ensures t[0].Lit? ==> Format(t, kwargs).value == t[0].text + Format(t[1..], kwargs).value
    ensures t[0].Hole? ==>
      t[0].name in kwargs && Format(t, kwargs).value == kwargs[t[0].name] + Format(t[1..], kwargs).value
  {
  }

  /** A successful format shows the argument of every field the template names. */
  lemma {:induction false} FormatShowsArgument(t: Template, kwargs: map<string, string>, n: string)
    requires Format(t, kwargs).Filled? && n in Names(t)
    ensures n in kwargs && Text.Contains(Format(t, kwargs).value, kwargs[n])
    decreases |t|
  {
    var i :| 0 <= i < |t| && t[i].Hole? && t[i].name == n;
    FormatFilledSplit(t, kwargs);
    var rest := Format(t[1..], kwargs).value;
    if t[0].Hole? && t[0].name == n {
      Text.OccursAtStart(kwargs[n], rest);
    } else {
      assert i > 0 && t[1..][i - 1] == t[i];
      FormatShowsArgument(t[1..], kwargs, n);
      var j :| Text.OccursAt(kwargs[n], rest, j);
      var p := if t[0].Lit? then t[0].text else kwargs[t[0].name];
      Text.OccursAfter(p, rest, kwargs[n], j);
    }
  }

  /** Only the arguments a template names matter: keyword arguments that agree on its
      fields give the same outcome, whatever else they bind. */
  lemma {:induction false} FormatIgnoresUnusedArguments(t: Template, kw1: map<string, string>, kw2: map<string, string>)
    requires forall n :: n in Names(t) ==> (n in kw1 <==> n in kw2)
    requires forall n :: n in Names(t) && n in kw1 && n in kw2 ==> kw1[n] == kw2[n]
    ensures Format(t, kw1) == Format(t, kw2)
    decreases |t|
  {
    if t != [] {
      assert Names(t[1..]) <= Names(t) by {
        forall n | n in Names(t[1..]) ensures n in Names(t) {
          var i :| 0 <= i < |t[1..]| && t[1..][i].Hole? && t[1..][i].name == n;
          assert t[i + 1] == t[1..][i];
        }
      }
      if t[0].Hole? {
        assert t[0].name in Names(t);
      }
      FormatIgnoresUnusedArguments(t[1..], kw1, kw2);
    }
  }
}

=== FILE: text.dfy ===
/** String helpers shared by the model: the parts of Python's `str` behaviour the bot relies on. */
module Text {

  /** ASCII lower-casing of one character. */
  function LowerChar(c: char): (d: char)
  {
    if 'A' <= c <= 'Z' then (c as int - 'A' as int + 'a' as int) as char else c
  }

  /** `s.lower()`, restricted to the ASCII letters. */
  function Lower(s: string): (r: string)
    ensures |r| == |s|
    ensures forall i :: 0 <= i < |s| ==> r[i] == LowerChar(s[i])
  {
    if s == [] then [] else [LowerChar(s[0])] + Lower(s[1..])
  }

  /** `sub` occurs in `s` starting at index `i`. */
  predicate OccursAt(sub: string, s: string, i: int)
  {
    0 <= i && i + |sub| <= |s| && s[i..i + |sub|] == sub
  }

  /** Python's `sub in s`, computed by scanning `s` from the left. */
  function Contains(s: string, sub: string): (b: bool)
    ensures b <==> exists i :: OccursAt(sub, s, i)
    decreases |s|
  {
    if |sub| <= |s| && s[..|sub|] == sub then
      assert OccursAt(sub, s, 0);
      true
    else if s == [] then
      assert forall i :: !OccursAt(sub, s, i);
      false
    else
      var rest := Contains(s[1..], sub);
      assert forall i :: OccursAt(sub, s[1..], i) <==> OccursAt(sub, s, i + 1);
      assert forall i :: OccursAt(sub, s, i) ==> i == 0 || OccursAt(sub, s[1..], i - 1);
      rest
  }

  /** A text occurs at the start of anything it begins. */
  lemma OccursAtStart(sub: string, r: string)
    ensures OccursAt(sub, sub + r, 0)
  {
    assert (sub + r)[..|sub|] == sub;
  }

  /** An occurrence in `r` stays one, shifted, once `p` is put before `r`. */
  lemma OccursAfter(p: string, r: string, sub: string, j: int)
    requires OccursAt(sub, r, j)
    ensures OccursAt(sub, p + r, |p| + j)
  {
    assert (p + r)[|p| + j..|p| + j + |sub|] == r[j..j + |sub|];
  }

  /** Python's slice `s[:n]` for `n >= 0`: the first `n` characters, or all of `s` when it is shorter. */
  function Take(s: string, n: nat): (r: string)
    ensures |r| == if |s| <= n then |s| else n
    ensures r == s[..|r|]
  {
    if |s| <= n then s else s[..n]
  }

  predicate IsDigit(c: char)
  {
    '0' <= c <= '9'
  }

  predicate AllDigits(s: string)
  {
    forall i :: 0 <= i < |s| ==> IsDigit(s[i])
  }

  function DigitChar(d: nat): (c: char)
    requires d < 10
    ensures IsDigit(c)
  {
    ('0' as int + d) as char
  }

  function DigitValue(c: char): (d: nat)
    requires IsDigit(c)
    ensures d < 10
  {
    c as int - '0' as int
  }

  /** The decimal digits of `n`, most significant first, with no leading zero (Python's `str(n)`). */
  function NatToString(n: nat): (s: string)
    ensures |s| > 0 && AllDigits(s)
    ensures |s| > 1 ==> s[0] != '0'
  {
    if n < 10 then [DigitChar(n)] else NatToString(n / 10) + [DigitChar(n % 10)]
  }

  /** Python's `str(i)` for an integer: a minus sign before the digits of a negative number. */
  function IntToString(i: int): (s: string)
    ensures |s| > 0
    ensures i >= 0 ==> AllDigits(s)
    ensures i < 0 ==> s[0] == '-' && AllDigits(s[1..])
  {
    if i < 0 then "-" + NatToString(-i) else NatToString(i)
  }

  /** The value of a string of decimal digits (Python's `int(s)` on such a string). */
  function ParseNat(s: string): (n: nat)
    requires AllDigits(s)
  {
    if s == [] then 0 else 10 * ParseNat(s[..|s| - 1]) + DigitValue(s[|s| - 1])
  }

  /** The value of `str(i)`, read back. */
  function ParseInt(s: string): (i: int)
    requires |s| > 0
    requires s[0] == '-' ==> AllDigits(s[1..])
    requires s[0] != '-' ==> AllDigits(s)
  {
    if s[0] == '-' then -(ParseNat(s[1..]) as int) else ParseNat(s)
  }

  /** Rendering a natural number in decimal loses nothing. */
  lemma {:induction false} NatToStringRoundTrip(n: nat)
    ensures ParseNat(NatToString(n)) == n
  {
    if n >= 10 {
      var s := NatToString(n);
      assert s[..|s| - 1] == NatToString(n / 10);
      NatToStringRoundTrip(n / 10);
    }
  }

  /** Rendering an integer in decimal loses nothing, sign included. */
  lemma IntToStringRoundTrip(i: int)
    ensures ParseInt(IntToString(i)) == i
  {
    if i < 0 {
      assert IntToString(i)[1..] == NatToString(-i);
      NatToStringRoundTrip(-i);
    } else {
      NatToStringRoundTrip(i);
    }
  }
}
